=== FILE: README.md ===
# PersistentObject in Dafny

A model of PersistentObject, a small Swift library that caches one value in memory
and keeps it durable through interchangeable storage backends: an NSUserDefaults
database, a file, or the iCloud key-value store (NSUbiquitousKeyValueStore).

The model has these parts:

- **Storage media** (`Stores`): each is a class holding a map that is updated in place.
  - `KeyValueStore` models both NSUserDefaults and the iCloud store. It maps a key to
    a property-list value, which is data or some other object.
  - `KeyValueStore` counts calls to its `synchronize` in a ghost field.
  - `FileManager` maps a path to file contents.
- **Codec** (`Codec`): a pair of functions, `encode` and `decode`, supplied by the
  caller. Every round-trip claim rests on one explicit assumption, `RoundTrips(codec)`:
  `decode(encode(v)) == Some(v)`.
- **Record semantics** (`Records`): what archiving and unarchiving one record does to a
  medium, written once as functions. Both backend families use them.
  - `MediumState` is a snapshot of any medium.
  - `AfterArchive`, `AfterSynchronize` and `ReadFrom` give its transitions.
- **Backends**: `UserDefaultsRepository`, `FileRepository` and
  `UbiquitousKeyValueStoreRepository`.
  - Each is a class addressing one record by a constant key or filename.
  - Each method is proved to have exactly the effect the record functions describe.
- **The change filter** (`KeyValueStoreChange.Filter`): the iCloud backend's
  notification guard chain, as a pure function. It returns the guard where the chain
  stops, or `Deliver`.
- **The handler**: the iCloud backend's did-change-externally method. It re-reads the
  record without synchronizing. It returns the value to hand to the installed closure,
  or `None` when no closure runs.
- **Type erasure** (`AnyRepository`): the wrapped repository is one variant of the
  datatype `Base`.
  - Every operation forwards through a `match`.
  - The wrapper's delegate is the wrapped repository's own delegate object.
- **The persistent object** (`PersistentObject`): a class holding the cached value, the
  erased repository and an `alive` flag. The flag stands for the closure's weak
  reference.
  - Its methods are `Reset`, `Save`, `Synchronize`, `Deinit`, the background hook, and
    the installed closure `ObjectChangedExternally`.
  - `DeliverExternalChange` runs a notification through the iCloud handler into that
    closure.
- **An abstract state machine** (`Cache`, `Event`, `Step`, `Run`): the cached value
  paired with what a fresh unarchive would return.
  - `Reset` and `Synchronize` are proved to take the `Reset` and `Synchronize` steps.
    `ObjectChangedExternally` takes the `Reset` step when the object is alive and
    otherwise leaves the view unchanged. `DeliverExternalChange` takes the
    `ExternalChange` step when the filter delivers and the object is alive, and
    otherwise leaves the view unchanged.
  - `Save`, `Deinit` and `ApplicationDidEnterBackgroundOrResignActive` take the `Save`
    step only under the codec assumption `RoundTrips`. Without it they are specified by
    their effect on the medium (`AfterArchive` of the cached value).
  - The constructor and the three factory methods take no step: they start a view,
    which is proved synced.
  - Lemmas over event sequences give the persistence guarantees: no write-through, a
    saved value stays durable, the object stays synced, and the last writer wins.
- **The Strategy family** (`Strategy`, `AnyStrategy`, `UserDefaultsStrategy`,
  `FileStrategy`, `UbiquitousKeyValueStoreStrategy`): an older copy of the same family
  with the same bodies. It is modelled one-for-one, on the same record functions.
- **Scenarios** (`Scenarios`): the XCTest cases restated as verified methods, plus a
  remote-change scenario.

Naming:

- Swift's `object` property and parameters are called `value`, because `object` is a
  reserved word in Dafny.
- The private `unarchiveObject(synchronize:)` of the iCloud strategy is named
  `UnarchiveObjectSynchronizing`, because Dafny has no overloading.
- In `UbiquituousKeyValueStoreRepository.swift`, the iCloud repository spells its
  operations `archive(_:)` and `unarchive()`. The protocol names them `archiveObject`
  and `unarchiveObject`. `AnyRepository` forwards the protocol operations to them.

The model follows the code:

- Only `save()` archives, and the model's `Save` is the only archiving operation.
  `synchronize()` only forwards to the repository. The XCTest file still calls
  `synchronize()` as the persisting call and uses an older `init(key:)`, so the
  scenarios use `Save` and `WithUserDefaultsKey`.
- The source has no lock around the cached value, and neither does the model.
- The source's handler builds a fresh type-erased wrapper for each change event, and the
  receiving closure ignores it. The model passes no wrapper.

## Model

| member | source | states |
|---|---|---|
| Stores.DataInAfterSet | PersistentObject/UserDefaultsRepository.swift:22-35 | after `set(_:forKey:)`, `data(forKey:)` at that key yields the bytes exactly when the new entry is data; every other key reads as before |
| Stores.DataInAfterRemove | PersistentObject/UserDefaultsRepository.swift:22-35 | after `removeObject(forKey:)`, `data(forKey:)` at that key yields nothing; every other key reads as before |
| Records.UnarchivedEntryCases | PersistentObject/UserDefaultsRepository.swift:33-39 | unarchiving yields nothing for a missing key or a non-data entry; it yields `Some(v)` exactly when the entry is data that decodes to `v` |
| Records.EntryRoundTrip | PersistentObject/UserDefaultsRepository.swift:22-39 | on a key-value store, reading back an archived value gives it back, and reading after archiving nil gives nil |
| Records.EntryFrame | PersistentObject/UserDefaultsRepository.swift:22-28 | archiving one key leaves every other key's presence and entry unchanged, and so what any other backend reads there |
| Records.EntryLastArchiveWins | PersistentObject/UserDefaultsRepository.swift:22-28 | of two archives to the same key, only the second is visible in the store |
| Records.FileRoundTrip | PersistentObject/FileRepository.swift:19-34 | on the file system, writing then reading gives the value back, and deleting then reading gives nil |
| Records.FileFrame | PersistentObject/FileRepository.swift:19-27 | archiving to one file leaves every other file untouched |
| Records.DeleteMissingFile | PersistentObject/FileRepository.swift:22-25 | archiving nil when the file does not exist changes nothing |
| Records.ArchiveRoundTrip | PersistentObject/Repository.swift:10-18 | for every backend's medium, unarchiving after archiving gives the archived value, nil included |
| Records.SynchronizeKeepsRead | PersistentObject/Repository.swift:20-21 | in this model, synchronizing never changes what an unarchive returns; this follows from the store abstraction under "Left out" (no remote merge), not from the source, whose iCloud backend synchronizes precisely to learn of newer remote values |
| KeyValueStoreChange.Filter | PersistentObject/UbiquituousKeyValueStoreRepository.swift:66-83 | the guard chain stops at missing user info, at a missing or non-Int reason, or at a reason other than initial sync or server change; it delivers exactly when the reason is one of those two and the changed-keys list is present and contains the key |
| KeyValueStoreChange.LocalReasonsIgnored | PersistentObject/UbiquituousKeyValueStoreRepository.swift:75-77 | quota-violation and account-change notifications are ignored whatever keys they list |
| KeyValueStoreChange.OtherKeysIgnored | PersistentObject/UbiquituousKeyValueStoreRepository.swift:79-83 | a notification whose changed keys omit the backend's key is never delivered |
| KeyValueStoreChange.RemoteChangeDelivered | PersistentObject/UbiquituousKeyValueStoreRepository.swift:75-86 | a server-change or initial-sync notification listing the key passes every guard |
| Repository.RepositoryDelegate.constructor | PersistentObject/Repository.swift:25-34 | a fresh delegate's single callback slot is empty |
| UserDefaultsRepository.UserDefaultsRepository.constructor | PersistentObject/UserDefaultsRepository.swift:14-17 | the key and database are fixed at construction; the delegate is fresh with an empty slot |
| UserDefaultsRepository.UserDefaultsRepository.ArchiveObject | PersistentObject/UserDefaultsRepository.swift:22-28 | a present value sets the entry at the key to its encoding, nil removes the entry; nothing else in the database changes; the value reads back under the codec assumption |
| UserDefaultsRepository.UserDefaultsRepository.UnarchiveObject | PersistentObject/UserDefaultsRepository.swift:33-39 | returns the decoded data entry at the key, and nil when the key is missing; never modifies the database |
| UserDefaultsRepository.UserDefaultsRepository.Synchronize | PersistentObject/UserDefaultsRepository.swift:42-44 | forwards exactly one synchronize to the database and changes no entry |
| FileRepository.FileRepository.constructor | PersistentObject/FileRepository.swift:12-14 | the filename is fixed at construction; the delegate is fresh with an empty slot |
| FileRepository.FileRepository.ArchiveObject | PersistentObject/FileRepository.swift:19-27 | a present value replaces the file's contents with its encoding; nil deletes the file only if it exists; other files are untouched; the value reads back under the codec assumption |
| FileRepository.FileRepository.UnarchiveObject | PersistentObject/FileRepository.swift:32-34 | returns the decoded file contents, and nil for a missing file; never modifies the file system |
| FileRepository.FileRepository.Synchronize | PersistentObject/FileRepository.swift:36-38 | has no effect at all |
| UbiquitousKeyValueStoreRepository.UbiquitousKeyValueStoreRepository.constructor | PersistentObject/UbiquituousKeyValueStoreRepository.swift:12-20 | the key is fixed at construction; the delegate is fresh with an empty slot |
| UbiquitousKeyValueStoreRepository.UbiquitousKeyValueStoreRepository.Archive | PersistentObject/UbiquituousKeyValueStoreRepository.swift:28-36 | a present value sets the data at the key, nil removes the key; other keys and the synchronize count are unchanged |
| UbiquitousKeyValueStoreRepository.UbiquitousKeyValueStoreRepository.Unarchive | PersistentObject/UbiquituousKeyValueStoreRepository.swift:41-43 | returns the value read before synchronizing and synchronizes exactly once, changing no entry |
| UbiquitousKeyValueStoreRepository.UbiquitousKeyValueStoreRepository.Synchronize | PersistentObject/UbiquituousKeyValueStoreRepository.swift:46-48 | forwards exactly one synchronize to the store and changes no entry |
| UbiquitousKeyValueStoreRepository.UbiquitousKeyValueStoreRepository.UnarchiveObject | PersistentObject/UbiquituousKeyValueStoreRepository.swift:50-64 | returns the decoded data at the key as read first (nil if absent or undecodable), then synchronizes once if and only if asked to |
| UbiquitousKeyValueStoreRepository.UbiquitousKeyValueStoreRepository.UbiquitousKeyValueStoreDidChangeExternally | PersistentObject/UbiquituousKeyValueStoreRepository.swift:66-88 | the closure is handed a value exactly when the filter delivers and a closure is installed; that value is the record as read (nil if absent); the store is neither modified nor synchronized |
| AnyRepository.AnyRepository.constructor | PersistentObject/Repository.swift:46-51 | the wrapper captures the wrapped repository and nothing else |
| AnyRepository.AnyRepository.Delegate | PersistentObject/Repository.swift:47-54 | the wrapper's delegate is the wrapped repository's own delegate object |
| AnyRepository.AnyRepository.ArchiveObject | PersistentObject/Repository.swift:59 | the medium changes exactly as the wrapped repository's archive changes it, and nothing outside that medium changes |
| AnyRepository.AnyRepository.UnarchiveObject | PersistentObject/Repository.swift:64 | returns exactly what the wrapped repository returns, with its effect (one synchronize for the iCloud backend, none otherwise) |
| AnyRepository.AnyRepository.Synchronize | PersistentObject/Repository.swift:67 | has exactly the wrapped repository's synchronize effect (none for files) |
| Strategy.StrategyDelegate.constructor | PersistentObject/Strategy.swift:25-34 | a fresh strategy delegate's single callback slot is empty |
| UserDefaultsStrategy.UserDefaultsStrategy.constructor | PersistentObject/UserDefaultsStrategy.swift:14-17 | the key and database are fixed at construction; the delegate is fresh with an empty slot |
| UserDefaultsStrategy.UserDefaultsStrategy.ArchiveObject | PersistentObject/UserDefaultsStrategy.swift:22-28 | a present value sets the entry at the key to its encoding, nil removes it; nothing else changes; the value reads back under the codec assumption |
| UserDefaultsStrategy.UserDefaultsStrategy.UnarchiveObject | PersistentObject/UserDefaultsStrategy.swift:33-39 | returns the decoded data entry at the key, nil when it is missing; never modifies the database |
| UserDefaultsStrategy.UserDefaultsStrategy.Synchronize | PersistentObject/UserDefaultsStrategy.swift:42-44 | forwards exactly one synchronize to the database and changes no entry |
| FileStrategy.FileStrategy.constructor | PersistentObject/FileStrategy.swift:12-14 | the filename is fixed at construction; the delegate is fresh with an empty slot |
| FileStrategy.FileStrategy.ArchiveObject | PersistentObject/FileStrategy.swift:19-27 | a present value replaces the file's contents; nil deletes the file only if it exists; other files are untouched |
| FileStrategy.FileStrategy.UnarchiveObject | PersistentObject/FileStrategy.swift:32-34 | returns the decoded file contents, nil for a missing file; never modifies the file system |
| FileStrategy.FileStrategy.Synchronize | PersistentObject/FileStrategy.swift:36-38 | has no effect at all |
| UbiquitousKeyValueStoreStrategy.UbiquitousKeyValueStoreStrategy.constructor | PersistentObject/UbiquituousKeyValueStoreStrategy.swift:13-21 | the key is fixed at construction; the delegate is fresh with an empty slot |
| UbiquitousKeyValueStoreStrategy.UbiquitousKeyValueStoreStrategy.ArchiveObject | PersistentObject/UbiquituousKeyValueStoreStrategy.swift:30-38 | sets the data at the key or removes the key; other keys and the synchronize count are unchanged |
| UbiquitousKeyValueStoreStrategy.UbiquitousKeyValueStoreStrategy.UnarchiveObject | PersistentObject/UbiquituousKeyValueStoreStrategy.swift:44-46 | returns the value read before synchronizing and synchronizes exactly once |
| UbiquitousKeyValueStoreStrategy.UbiquitousKeyValueStoreStrategy.Synchronize | PersistentObject/UbiquituousKeyValueStoreStrategy.swift:49-51 | forwards exactly one synchronize to the store |
| UbiquitousKeyValueStoreStrategy.UbiquitousKeyValueStoreStrategy.UnarchiveObjectSynchronizing | PersistentObject/UbiquituousKeyValueStoreStrategy.swift:53-66 | returns the record as read first, then synchronizes once if and only if asked to |
| UbiquitousKeyValueStoreStrategy.UbiquitousKeyValueStoreStrategy.UbiquitousKeyValueStoreDidChangeExternally | PersistentObject/UbiquituousKeyValueStoreStrategy.swift:68-90 | delivers only when the filter passes and a closure is installed, with the record read without synchronizing; the store is untouched |
| AnyStrategy.AnyStrategy.constructor | PersistentObject/Strategy.swift:46-51 | the wrapper captures the wrapped strategy and nothing else |
| AnyStrategy.AnyStrategy.Delegate | PersistentObject/Strategy.swift:47-54 | the wrapper's delegate is the wrapped strategy's own delegate object |
| AnyStrategy.AnyStrategy.ArchiveObject | PersistentObject/Strategy.swift:59 | the medium changes exactly as the wrapped strategy's archive changes it |
| AnyStrategy.AnyStrategy.UnarchiveObject | PersistentObject/Strategy.swift:64 | returns exactly what the wrapped strategy returns, with its effect |
| AnyStrategy.AnyStrategy.Synchronize | PersistentObject/Strategy.swift:67 | has exactly the wrapped strategy's synchronize effect |
| PersistentObject.NoWriteThrough | PersistentObject/PersistentObject.swift:64-66 | no sequence of resets, synchronizations and deliveries changes the durable record |
| PersistentObject.SavedValueIsDurable | PersistentObject/PersistentObject.swift:71-73 | after a save, the record holds the value cached at that save until the next save or remote write |
| PersistentObject.StaysSynced | PersistentObject/PersistentObject.swift:29-39 | a synced object stays synced through saves, synchronizations and deliveries |
| PersistentObject.RemoteChangeOverridesUnsavedEdit | PersistentObject/PersistentObject.swift:29-37 | last writer wins: a delivered remote change replaces an unsaved local edit |
| PersistentObject.PersistentObjectDelegate.constructor | PersistentObject/PersistentObject.swift:116-124 | a fresh delegate has no closure and has not been called |
| PersistentObject.PersistentObjectDelegate.Notify | PersistentObject/PersistentObject.swift:36 | the optional closure is called once with the object if installed, and not at all otherwise |
| PersistentObject.PersistentObject.constructor | PersistentObject/PersistentObject.swift:24-39 | installs its closure in the wrapped repository's own delegate; the cached value is what the repository's unarchive returned then; the object starts synced |
| PersistentObject.PersistentObject.Reset | PersistentObject/PersistentObject.swift:64-66 | sets the cached value and does no I/O: the record is unchanged |
| PersistentObject.PersistentObject.Save | PersistentObject/PersistentObject.swift:71-73 | archives the cached value (present: written, nil: removed), leaves it unchanged, and makes it durable under the codec assumption |
| PersistentObject.PersistentObject.Synchronize | PersistentObject/PersistentObject.swift:76-78 | only forwards the repository's synchronize; neither archives nor changes the cached value |
| PersistentObject.PersistentObject.Deinit | PersistentObject/PersistentObject.swift:56-59 | performs exactly one save, then clears the closure's weak reference |
| PersistentObject.PersistentObject.ApplicationDidEnterBackgroundOrResignActive | PersistentObject/PersistentObject.swift:80-82 | has exactly the effect of one save |
| PersistentObject.PersistentObject.ObjectChangedExternally | PersistentObject/PersistentObject.swift:29-37 | if the object is alive, it overwrites the cached value (nil included) without archiving (its view takes the Reset step) and then calls the delegate's closure once; otherwise it does nothing |
| PersistentObject.DeliverExternalChange | PersistentObject/UbiquituousKeyValueStoreRepository.swift:83-86 | an iCloud notification re-syncs the cached value to the record, and calls the closure once, exactly when the filter delivers and the object is alive; the store is neither written nor synchronized |
| PersistentObject.WithUserDefaultsKey | PersistentObject/PersistentObject.swift:90-94 | builds an object over a fresh user-defaults repository; its cached value is the current record |
| PersistentObject.WithFilename | PersistentObject/PersistentObject.swift:99-101 | builds an object over a fresh file repository; its cached value is the current file's decoding |
| PersistentObject.WithUbiquitousKeyValueStoreKey | PersistentObject/PersistentObject.swift:108-112 | builds an object over a fresh iCloud repository whose slot holds the object's closure; reading synchronizes once |
| Scenarios.ReadThroughTemporary | PersistentObjectTests/PersistentObjectTests.swift:81 | a temporary object reads the current record, and releasing it rewrites that same value |
| Scenarios.BasicScenario | PersistentObjectTests/PersistentObjectTests.swift:65-109 | an unsaved reset is invisible to a new object; a saved value is read back; a saved nil removes the record |
| Scenarios.SaveOnDeinitScenario | PersistentObjectTests/PersistentObjectTests.swift:130-165 | a value that is never saved explicitly becomes durable when its object is released |
| Scenarios.RemoteChangeScenario | PersistentObject/UbiquituousKeyValueStoreRepository.swift:66-88 | notifications for other keys or with a quota reason are ignored; a server change for the key overwrites an unsaved edit and calls the closure exactly once |

## Left out

- Notification-center registration and removal are not modelled. This is platform
  wiring in PersistentObject.swift:41-53,57 and in the iCloud backends' initializers
  and deinitializers. Two methods stand in for it: the background hook is a method that
  saves, and the remote notification is a method taking the notification.
- The codec's byte format is not modelled. `NSKeyedArchiver` and `NSKeyedUnarchiver` are
  foreign code, so encode and decode are caller-supplied functions.
  - A failed decode and a failed `as?` cast both yield `None`.
  - The payload is treated as a value (`T(!new)`): object identity of decoded copies is
    not modelled.
- What the platform stores do remotely or on disk is not modelled. `synchronize` leaves
  a store's contents unchanged and only counts the call; no remote merge is invented.
- The stores are passed as parameters. The user-defaults repository already takes its
  database as a parameter (UserDefaultsRepository.swift:14-16); only the convenience
  initializer's default argument is `NSUserDefaults.standardUserDefaults()`
  (PersistentObject.swift:92). The file repository reaches `NSFileManager.defaultManager()`
  and the iCloud repository reaches `NSUbiquitousKeyValueStore.default` as process-wide
  singletons. The model passes each one explicitly.
- Concurrency is not modelled. The source has no locks, and a notification is handled as
  an ordinary sequential call.
- Closures are not stored. Two slots stand in for them:
  - A repository delegate's slot records which object installed its closure.
  - A persistent-object delegate records whether a closure is installed, and every call.
  - The weak capture of `self` becomes the `alive` flag, which `Deinit` clears.
- The erased wrapper passed with each change event is not modelled. The handler builds
  a fresh one each time, and the receiving closure ignores it.
- The stored `delegate` property of the persistent object is not modelled. It is always
  nil (PersistentObject.swift:18); the initializer's delegate parameter, captured by the
  closure, is what gets notified.
- Failed file writes are not modelled. `NSKeyedArchiver.archiveRootObject(_:toFile:)`
  can return false and leave the file as it was, and FileRepository.swift:21 and
  FileStrategy.swift:21 ignore that result. `FileManager.WriteFile` always succeeds, so
  the durability proved for `Save` over a file assumes the write succeeded.
- Key comparison is exact: `key in keys` in `KeyValueStoreChange.Filter` compares code
  points. Swift's `String ==`, used by `keys.contains(key)`
  (UbiquituousKeyValueStoreRepository.swift:83), uses Unicode canonical equivalence, so
  two differently normalised spellings of one key match in the source but not in the
  model.
- The two key-value stores compare their keys literally, and so does the model's map
  lookup; there the model and the source agree.
- The file model identifies a file with its path string. Case-insensitive volumes,
  Unicode normalisation in the file system, `.`/`..` components, relative against
  absolute paths and symbolic links can make two different strings name one file; none of
  this is modelled. `Records.FileFrame` therefore holds for distinct files, not merely for
  distinct path strings.
- The crash of `try!` on a failed file removal is not modelled: removal of an existing
  file always succeeds.
- `AnyRepository` and `AnyStrategy` wrap only the three concrete backends, as variants of
  a datatype. A user-defined conforming type, or a wrapper around a wrapper, is not
  representable.
- The Strategy family has no persistent object on top of it, because the source has none.
- The `testDate` case is not modelled separately. It follows the same steps as the
  basic scenario with a date payload.

=== FILE: codec.dfy ===
/**
 * The payload codec: NSKeyedArchiver on the way in, NSKeyedUnarchiver followed by the
 * `as? ObjectType` cast on the way out. The byte format is not modelled; a codec is a
 * pair of functions supplied by the caller, and the only thing ever assumed of it is
 * `RoundTrips`.
 */
module Codec {
  import opened Wrappers

  type Bytes = seq<bv8>

  /** `decode` yields `None` both when the bytes do not unarchive and when the cast fails. */
  datatype Codec<!T> = Codec(encode: T -> Bytes, decode: Bytes -> Option<T>)

  /** The codec gives back every value it encoded. */
  ghost predicate RoundTrips<T(!new)>(c: Codec<T>) {
    forall v :: c.decode(c.encode(v)) == Some(v)
  }
}

=== FILE: file_repository.dfy ===
/** A Repository persisting to one file. */
module FileRepository {
  import opened Wrappers
  import opened Codec
  import opened Stores
  import opened Records
  import opened Repository

  class FileRepository<T(!new)> {
    /** Never given a closure by the repository itself: local files do not change externally. */
    const delegate: RepositoryDelegate
    const filename: string
    /** The process's file manager, passed in rather than reached through a global. */
    const fileManager: FileManager
    const codec: Codec<T>

    /** The filename is a constant: the repository addresses one file for its lifetime. */
    constructor (filename: string, fileManager: FileManager, codec: Codec<T>)
      ensures this.filename == filename && this.fileManager == fileManager && this.codec == codec
      ensures fresh(delegate) && delegate.objectChangedExternally == None
    {
      this.filename := filename;
      this.fileManager := fileManager;
      this.codec := codec;
      delegate := new RepositoryDelegate();
    }

    /** What an unarchive returns in the current state. */
    ghost function Read(): Option<T>
      reads fileManager
    {
      UnarchivedFile(fileManager.files, filename, codec)
    }

    method ArchiveObject(value: Option<T>)
      modifies fileManager
      ensures fileManager.files == ArchivedFiles(old(fileManager.files), filename, codec, value)
      ensures RoundTrips(codec) ==> Read() == value
    {
      match value {
        case Some(v) =>
          fileManager.WriteFile(filename, codec.encode(v));
        case None =>
          if fileManager.FileExists(filename) {
            fileManager.RemoveItem(filename);
          }
      }
      if RoundTrips(codec) {
        FileRoundTrip(old(fileManager.files), filename, codec, value);
      }
    }

    /** Reads without changing the file system (no `modifies`). */
    method UnarchiveObject() returns (value: Option<T>)
      ensures value == Read()
      ensures filename !in fileManager.files ==> value == None
    {
      var contents := fileManager.Contents(filename);
      if contents.Some? {
        return codec.decode(contents.value);
      }
      return None;
    }

    /** No effect: it may change nothing at all. */
    method Synchronize()
      ensures fileManager.files == old(fileManager.files)
    {
    }
  }
}

=== FILE: file_strategy.dfy ===
/** A Strategy persisting to one file. */
module FileStrategy {
  import opened Wrappers
  import opened Codec
  import opened Stores
  import opened Records
  import opened Strategy

  class FileStrategy<T(!new)> {
    /** Never given a closure by the strategy itself: local files do not change externally. */
    const delegate: StrategyDelegate
    const filename: string
    /** The process's file manager, passed in rather than reached through a global. */
    const fileManager: FileManager
    const codec: Codec<T>

    /** The filename is a constant: the strategy addresses one file for its lifetime. */
    constructor (filename: string, fileManager: FileManager, codec: Codec<T>)
      ensures this.filename == filename && this.fileManager == fileManager && this.codec == codec
      ensures fresh(delegate) && delegate.objectChangedExternally == None
    {
      this.filename := filename;
      this.fileManager := fileManager;
      this.codec := codec;
      delegate := new StrategyDelegate();
    }

    /** What an unarchive returns in the current state. */
    ghost function Read(): Option<T>
      reads fileManager
    {
      UnarchivedFile(fileManager.files, filename, codec)
    }

    method ArchiveObject(value: Option<T>)
      modifies fileManager
      ensures fileManager.files == ArchivedFiles(old(fileManager.files), filename, codec, value)
      ensures RoundTrips(codec) ==> Read() == value
    {
      match value {
        case Some(v) =>
          fileManager.WriteFile(filename, codec.encode(v));
        case None =>
          if fileManager.FileExists(filename) {
            fileManager.RemoveItem(filename);
          }
      }
      if RoundTrips(codec) {
        FileRoundTrip(old(fileManager.files), filename, codec, value);
      }
    }

    /** Reads without changing the file system (no `modifies`). */
    method UnarchiveObject() returns (value: Option<T>)
      ensures value == Read()
      ensures filename !in fileManager.files ==> value == None
    {
      var contents := fileManager.Contents(filename);
      if contents.Some? {
        return codec.decode(contents.value);
      }
      return None;
    }

    /** No effect: it may change nothing at all. */
    method Synchronize()
      ensures fileManager.files == old(fileManager.files)
    {
    }
  }
}

=== FILE: key_value_store_change.dfy ===
/**
 * The payload of NSUbiquitousKeyValueStore's did-change-externally notification and
 * the guard chain both iCloud backends run on it before re-reading their record.
 */
module KeyValueStoreChange {
  import opened Wrappers

  /** Values of the change reason, as the platform defines them. */
  const ServerChange: int := 0
  const InitialSyncChange: int := 1
  const QuotaViolationChange: int := 2
  const AccountChange: int := 3

  /** Keys of the notification's user-info dictionary. */
  const ChangeReasonKey: string := "NSUbiquitousKeyValueStoreChangeReasonKey"
  const ChangedKeysKey: string := "NSUbiquitousKeyValueStoreChangedKeysKey"

  /** A user-info value, as far as the handler's casts can tell them apart. */
  datatype UserInfoValue = Integer(n: int) | Strings(items: seq<string>) | OtherValue

  datatype Notification = Notification(userInfo: Option<map<string, UserInfoValue>>)

  /** `userInfo[ChangeReasonKey] as? Int` */
  function Reason(info: map<string, UserInfoValue>): Option<int>
  {
    if ChangeReasonKey in info && info[ChangeReasonKey].Integer? then Some(info[ChangeReasonKey].n) else None
  }

  /** `userInfo[ChangedKeysKey] as? [String]` */
  function ChangedKeys(info: map<string, UserInfoValue>): Option<seq<string>>
  {
    if ChangedKeysKey in info && info[ChangedKeysKey].Strings? then Some(info[ChangedKeysKey].items) else None
  }

  /** Where the guard chain returns, or `Deliver` when every guard passes. */
  datatype Verdict = MissingUserInfo | MissingReason | IgnoredReason | MissingChangedKeys | KeyNotChanged | Deliver

  /** The guard chain of the handler, in its order, for the backend owning `key`. */
  function Filter(notification: Notification, key: string): (v: Verdict)
    ensures v == MissingUserInfo <==> notification.userInfo.None?
    ensures v == MissingReason <==> notification.userInfo.Some? && Reason(notification.userInfo.value).None?
    ensures v == IgnoredReason ==>
              var reason := Reason(notification.userInfo.value).value;
              reason != InitialSyncChange && reason != ServerChange
    ensures v == Deliver <==>
              && notification.userInfo.Some?
              && var info := notification.userInfo.value;
              && Reason(info) in {Some(InitialSyncChange), Some(ServerChange)}
              && ChangedKeys(info).Some?
              && key in ChangedKeys(info).value
  {
    match notification.userInfo
    case None => MissingUserInfo
    case Some(info) =>
      match Reason(info)
      case None => MissingReason
      case Some(reason) =>
        if !(reason == InitialSyncChange || reason == ServerChange) then IgnoredReason
        else
          match ChangedKeys(info)
          case None => MissingChangedKeys
          case Some(keys) => if key in keys then Deliver else KeyNotChanged
  }

  /** Quota-violation and account-change notifications are never delivered, whatever keys they list. */
  lemma LocalReasonsIgnored(info: map<string, UserInfoValue>, key: string)
    requires Reason(info) == Some(QuotaViolationChange) || Reason(info) == Some(AccountChange)
    ensures Filter(Notification(Some(info)), key) == IgnoredReason
  {
  }

  /** A backend never delivers a change to a key it does not own. */
  lemma OtherKeysIgnored(notification: Notification, key: string)
    requires notification.userInfo.Some?
    requires var keys := ChangedKeys(notification.userInfo.value); keys.Some? && key !in keys.value
    ensures Filter(notification, key) != Deliver
  {
  }

  /** A server change or initial sync listing the key is delivered. */
  lemma RemoteChangeDelivered(reason: int, keys: seq<string>, key: string)
    requires reason == ServerChange || reason == InitialSyncChange
    requires key in keys
    ensures Filter(Notification(Some(map[ChangeReasonKey := Integer(reason), ChangedKeysKey := Strings(keys)])), key)
            == Deliver
  {
  }
}

=== FILE: persistent_object.dfy ===
/**
 * A persistent object: one cached value kept durable through a type-erased repository.
 * The cached value is Swift's `object` property, named `value` here because `object`
 * is a reserved word in Dafny.
 */
module PersistentObject {
  import opened Wrappers
  import opened Codec
  import opened Stores
  import opened Records
  import opened KeyValueStoreChange
  import AnyRepository
  import UserDefaultsRepository
  import FileRepository
  import UbiquitousKeyValueStoreRepository

  // ---- the state machine in the abstract ----

  /** The cached value, and what an unarchive of the record would return now. */
  datatype Cache<T> = Cache(value: Option<T>, stored: Option<T>)
  {
    /** The cached value matches the durable record. */
    ghost predicate Synced() {
      value == stored
    }
  }

  /**
   * What can happen to a persistent object: the four operations of the object
   * (`ExternalChange` is the delivery of a change notification) and `RemoteChange`, a
   * write to the record by another device.
   */
  datatype Event<T> = Reset(value: Option<T>) | Save | Synchronize | RemoteChange(value: Option<T>) | ExternalChange

  function Step<T>(s: Cache<T>, e: Event<T>): Cache<T>
  {
    match e
    case Reset(v) => s.(value := v)
    case Save => s.(stored := s.value)
    case Synchronize => s
    case RemoteChange(v) => s.(stored := v)
    case ExternalChange => s.(value := s.stored)
  }

  function Run<T>(s: Cache<T>, events: seq<Event<T>>): Cache<T>
    decreases |events|
  {
    if events == [] then s else Run(Step(s, events[0]), events[1..])
  }

  /** The events that change the durable record. */
  predicate Writes<T>(e: Event<T>) {
    e.Save? || e.RemoteChange?
  }

  lemma {:induction false} RunAppend<T>(s: Cache<T>, first: seq<Event<T>>, second: seq<Event<T>>)
    ensures Run(s, first + second) == Run(Run(s, first), second)
    decreases |first|
  {
    if first == [] {
      assert first + second == second;
    } else {
      assert (first + second)[1..] == first[1..] + second;
      RunAppend(Step(s, first[0]), first[1..], second);
    }
  }

  /** Resets and synchronizations never reach the record: there is no write-through. */
  lemma {:induction false} NoWriteThrough<T>(s: Cache<T>, events: seq<Event<T>>)
    requires forall i :: 0 <= i < |events| ==> !Writes(events[i])
    ensures Run(s, events).stored == s.stored
    decreases |events|
  {
    if events != [] {
      NoWriteThrough(Step(s, events[0]), events[1..]);
    }
  }

  /** After a save, the record holds the value cached at that save until the next write. */
  lemma {:induction false} SavedValueIsDurable<T>(s: Cache<T>, before: seq<Event<T>>, after: seq<Event<T>>)
    requires forall i :: 0 <= i < |after| ==> !Writes(after[i])
    ensures Run(s, before + [Event.Save] + after).stored == Run(s, before).value
  {
    RunAppend(s, before + [Event.Save], after);
    RunAppend(s, before, [Event.Save]);
    NoWriteThrough(Run(s, before + [Event.Save]), after);
  }

  /** Without resets and remote writes a synced object stays synced. */
  lemma {:induction false} StaysSynced<T>(s: Cache<T>, events: seq<Event<T>>)
    requires s.Synced()
    requires forall i :: 0 <= i < |events| ==> events[i].Save? || events[i].Synchronize? || events[i].ExternalChange?
    ensures Run(s, events).Synced()
    decreases |events|
  {
    if events != [] {
      StaysSynced(Step(s, events[0]), events[1..]);
    }
  }

  /**
   * Last writer wins: a remote change, once delivered, replaces the cached value and
   * an unsaved local edit is lost.
   */
  lemma RemoteChangeOverridesUnsavedEdit<T>(s: Cache<T>, mine: Option<T>, theirs: Option<T>)
    ensures Run(s, [Event.Reset(mine), Event.RemoteChange(theirs), Event.ExternalChange]) == Cache(theirs, theirs)
  {
    var events := [Event.Reset(mine), Event.RemoteChange(theirs), Event.ExternalChange];
    var edited := Step(s, Event.Reset(mine));
    var overwritten := Step(edited, Event.RemoteChange(theirs));
    assert events[1..] == [Event.RemoteChange(theirs), Event.ExternalChange];
    assert events[1..][1..] == [Event.ExternalChange];
    assert Run(s, events) == Run(overwritten, [Event.ExternalChange]);
  }

  // ---- the objects ----

  /** The owner's delegate: a slot for one closure called when the value changes externally. */
  class PersistentObjectDelegate<T(!new)> {
    /** Whether a closure is installed. */
    var objectChangedExternally: bool
    /** The persistent objects the installed closure has been called with, oldest first. */
    var calls: seq<PersistentObject<T>>

    constructor ()
      ensures !objectChangedExternally && calls == []
    {
      objectChangedExternally := false;
      calls := [];
    }

    /** Calls the closure with `p`, if one is installed. */
    method Notify(p: PersistentObject<T>)
      modifies this
      ensures objectChangedExternally == old(objectChangedExternally)
      ensures calls == if objectChangedExternally then old(calls) + [p] else old(calls)
    {
      if objectChangedExternally {
        calls := calls + [p];
      }
    }
  }

  class PersistentObject<T(!new)> {
    const repository: AnyRepository.AnyRepository<T>
    /** The object being persisted. */
    var value: Option<T>
    /** The delegate captured by the external-change closure installed at construction. */
    const changeDelegate: PersistentObjectDelegate?<T>
    /** False once deinitialized; the closure's weak reference to the object is then nil. */
    var alive: bool
    /** How many times `save()` has run, whoever called it. */
    ghost var saves: nat

    /** The cached value together with what the repository would unarchive now. */
    ghost function View(): Cache<T>
      reads this, repository.base.Footprint()
    {
      Cache(value, repository.Read())
    }

    /**
     * Installs the external-change closure in the repository's delegate, then reads the
     * initial value. The object starts synced.
     */
    constructor (repository: AnyRepository.AnyRepository<T>, delegate: PersistentObjectDelegate?<T>)
      modifies repository.Delegate(), repository.base.Footprint()
      ensures this.repository == repository && changeDelegate == delegate
      ensures alive && saves == 0
      ensures repository.Delegate().objectChangedExternally == Some(this)
      ensures value == old(repository.Read())
      ensures View().Synced()
      ensures repository.base.Medium()
              == if repository.base.Ubiquitous? then AfterSynchronize(old(repository.base.Medium()))
                 else old(repository.base.Medium())
    {
      this.repository := repository;
      changeDelegate := delegate;
      value := None;
      alive := true;
      saves := 0;
      new;
      repository.Delegate().objectChangedExternally := Some(this);
      value := repository.UnarchiveObject();
    }

    /** Replaces the cached value; no I/O. */
    method Reset(value: Option<T>)
      modifies this`value
      ensures this.value == value
      ensures View() == Step(old(View()), Event.Reset(value))
    {
      this.value := value;
    }

    /** Archives the cached value: present, it becomes the record; absent, the record is removed. */
    method Save()
      modifies this`saves, repository.base.Footprint()
      ensures saves == old(saves) + 1
      ensures repository.base.Medium()
              == AfterArchive(old(repository.base.Medium()), repository.base.Key(), repository.base.ObjectCodec(), value)
      ensures RoundTrips(repository.base.ObjectCodec()) ==> View() == Step(old(View()), Event.Save)
    {
      repository.ArchiveObject(value);
      saves := saves + 1;
    }

    /** Forwards to the repository; neither archives nor touches the cached value. */
    method Synchronize()
      modifies repository.base.Footprint()
      ensures repository.base.Medium() == AfterSynchronize(old(repository.base.Medium()))
      ensures View() == Step(old(View()), Event.Synchronize)
    {
      repository.Synchronize();
    }

    /** Deinitialization: exactly one save, after which the closure's weak reference is nil. */
    method Deinit()
      requires alive
      modifies this`alive, this`saves, repository.base.Footprint()
      ensures !alive
      ensures saves == old(saves) + 1
      ensures repository.base.Medium()
              == AfterArchive(old(repository.base.Medium()), repository.base.Key(), repository.base.ObjectCodec(), value)
      ensures RoundTrips(repository.base.ObjectCodec()) ==> View() == Step(old(View()), Event.Save)
    {
      Save();
      alive := false;
    }

    /** The background / resign-active hook: exactly one save. */
    method ApplicationDidEnterBackgroundOrResignActive()
      modifies this`saves, repository.base.Footprint()
      ensures saves == old(saves) + 1
      ensures repository.base.Medium()
              == AfterArchive(old(repository.base.Medium()), repository.base.Key(), repository.base.ObjectCodec(), value)
      ensures RoundTrips(repository.base.ObjectCodec()) ==> View() == Step(old(View()), Event.Save)
    {
      Save();
    }

    /**
     * The closure installed at construction: if the object is still alive, overwrite the
     * cached value (absent included) without archiving, then call the delegate's closure.
     */
    method ObjectChangedExternally(value: Option<T>)
      modifies this`value, changeDelegate
      ensures this.value == if old(alive) then value else old(this.value)
      ensures View() == if old(alive) then Step(old(View()), Event.Reset(value)) else old(View())
      ensures changeDelegate != null ==>
                && changeDelegate.objectChangedExternally == old(changeDelegate.objectChangedExternally)
                && changeDelegate.calls
                   == if alive && changeDelegate.objectChangedExternally then old(changeDelegate.calls) + [this]
                      else old(changeDelegate.calls)
    {
      if !alive {
        return;
      }
      Reset(value);
      if changeDelegate != null {
        changeDelegate.Notify(this);
      }
    }
  }

  /**
   * The platform posts a did-change-externally notification to the iCloud repository
   * behind `p`, whose delegate holds the closure `p` installed. The closure runs at most
   * once; the store is neither written nor synchronized.
   */
  method DeliverExternalChange<T(!new)>(
    repository: UbiquitousKeyValueStoreRepository.UbiquitousKeyValueStoreRepository<T>,
    notification: Notification,
    p: PersistentObject<T>)
    requires p.repository.base == AnyRepository.Ubiquitous(repository)
    requires repository.delegate.objectChangedExternally == Some(p)
    modifies repository.store, p`value, p.changeDelegate
    ensures repository.store.entries == old(repository.store.entries)
    ensures repository.store.synchronizations == old(repository.store.synchronizations)
    ensures var delivered := Filter(notification, repository.key) == Deliver && p.alive;
            && p.View() == (if delivered then Step(old(p.View()), Event.ExternalChange) else old(p.View()))
            && (p.changeDelegate != null ==>
                  && p.changeDelegate.objectChangedExternally == old(p.changeDelegate.objectChangedExternally)
                  && p.changeDelegate.calls
                  == if delivered && p.changeDelegate.objectChangedExternally then old(p.changeDelegate.calls) + [p]
                     else old(p.changeDelegate.calls))
  {
    var delivery := repository.UbiquitousKeyValueStoreDidChangeExternally(notification);
    if delivery.Some? {
      p.ObjectChangedExternally(delivery.value);
    }
  }

  // ---- the convenience initializers: each picks a backend ----

  method WithUserDefaultsKey<T(!new)>(userDefaultsKey: string, userDefaults: KeyValueStore, codec: Codec<T>)
    returns (p: PersistentObject<T>)
    modifies userDefaults
    ensures fresh(p) && fresh(p.repository) && p.alive && p.saves == 0
    ensures p.repository.base.UserDefaults?
    ensures var r := p.repository.base.userDefaultsRepository;
            fresh(r) && fresh(r.delegate) && r.key == userDefaultsKey && r.userDefaults == userDefaults && r.codec == codec
    ensures p.changeDelegate != null && fresh(p.changeDelegate)
    ensures !p.changeDelegate.objectChangedExternally && p.changeDelegate.calls == []
    ensures userDefaults.entries == old(userDefaults.entries)
    ensures userDefaults.synchronizations == old(userDefaults.synchronizations)
    ensures p.value == UnarchivedEntry(userDefaults.entries, userDefaultsKey, codec)
  {
    var r := new UserDefaultsRepository.UserDefaultsRepository(userDefaultsKey, userDefaults, codec);
    var erased := new AnyRepository.AnyRepository(AnyRepository.UserDefaults(r));
    var delegate := new PersistentObjectDelegate();
    p := new PersistentObject(erased, delegate);
  }

  method WithFilename<T(!new)>(filename: string, fileManager: FileManager, codec: Codec<T>)
    returns (p: PersistentObject<T>)
    modifies fileManager
    ensures fresh(p) && fresh(p.repository) && p.alive && p.saves == 0
    ensures p.repository.base.File?
    ensures var r := p.repository.base.fileRepository;
            fresh(r) && fresh(r.delegate) && r.filename == filename && r.fileManager == fileManager && r.codec == codec
    ensures p.changeDelegate != null && fresh(p.changeDelegate)
    ensures !p.changeDelegate.objectChangedExternally && p.changeDelegate.calls == []
    ensures fileManager.files == old(fileManager.files)
    ensures p.value == UnarchivedFile(fileManager.files, filename, codec)
  {
    var r := new FileRepository.FileRepository(filename, fileManager, codec);
    var erased := new AnyRepository.AnyRepository(AnyRepository.File(r));
    var delegate := new PersistentObjectDelegate();
    p := new PersistentObject(erased, delegate);
  }

  method WithUbiquitousKeyValueStoreKey<T(!new)>(
    ubiquitousKeyValueStoreKey: string, store: KeyValueStore, codec: Codec<T>, delegate: PersistentObjectDelegate?<T>)
    returns (p: PersistentObject<T>)
    modifies store
    ensures fresh(p) && fresh(p.repository) && p.alive && p.saves == 0
    ensures p.repository.base.Ubiquitous?
    ensures var r := p.repository.base.ubiquitousRepository;
            && fresh(r) && fresh(r.delegate) && r.key == ubiquitousKeyValueStoreKey && r.store == store && r.codec == codec
            && r.delegate.objectChangedExternally == Some(p)
    ensures p.changeDelegate == delegate
    ensures store.entries == old(store.entries)
    ensures store.synchronizations == old(store.synchronizations) + 1
    ensures p.value == UnarchivedEntry(store.entries, ubiquitousKeyValueStoreKey, codec)
  {
    var r := new UbiquitousKeyValueStoreRepository.UbiquitousKeyValueStoreRepository(ubiquitousKeyValueStoreKey, store, codec);
    var erased := new AnyRepository.AnyRepository(AnyRepository.Ubiquitous(r));
    p := new PersistentObject(erased, delegate);
  }
}

=== FILE: records.dfy ===
/**
 * What archiving and unarchiving one record does to a storage medium, stated once
 * as functions and shared by every backend of both the Repository and the Strategy
 * families. Each backend method is proved to have exactly these effects.
 */
module Records {
  import opened Wrappers
  import opened Codec
  import opened Stores

  // ---- key-value media (NSUserDefaults, NSUbiquitousKeyValueStore) ----

  /** The entries after archiving `value` under `key`: written when present, removed when absent. */
  function ArchivedEntries<T>(entries: map<string, PropertyValue>, key: string, codec: Codec<T>, value: Option<T>)
    : map<string, PropertyValue>
  {
    match value
    case Some(v) => entries[key := Data(codec.encode(v))]
    case None => entries - {key}
  }

  /** What unarchiving `key` yields: nothing for a missing entry, a non-data entry or bytes that do not decode. */
  function UnarchivedEntry<T>(entries: map<string, PropertyValue>, key: string, codec: Codec<T>): Option<T>
  {
    match DataIn(entries, key)
    case None => None
    case Some(bytes) => codec.decode(bytes)
  }

  lemma UnarchivedEntryCases<T>(entries: map<string, PropertyValue>, key: string, codec: Codec<T>, v: T)
    ensures key !in entries ==> UnarchivedEntry(entries, key, codec) == None
    ensures key in entries && entries[key].Other? ==> UnarchivedEntry(entries, key, codec) == None
    ensures UnarchivedEntry(entries, key, codec) == Some(v)
            <==> key in entries && entries[key].Data? && codec.decode(entries[key].bytes) == Some(v)
  {
  }

  lemma EntryRoundTrip<T(!new)>(entries: map<string, PropertyValue>, key: string, codec: Codec<T>, value: Option<T>)
    requires RoundTrips(codec)
    ensures UnarchivedEntry(ArchivedEntries(entries, key, codec, value), key, codec) == value
  {
  }

  /** Archiving one key leaves every other entry, and what any backend reads from it, as it was. */
  lemma EntryFrame<T, U>(entries: map<string, PropertyValue>, key: string, codec: Codec<T>, value: Option<T>,
                         other: string, otherCodec: Codec<U>)
    requires other != key
    ensures var after := ArchivedEntries(entries, key, codec, value);
            && (other in after <==> other in entries)
            && (other in entries ==> after[other] == entries[other])
            && UnarchivedEntry(after, other, otherCodec) == UnarchivedEntry(entries, other, otherCodec)
  {
  }

  /** Of two archives of the same key only the second is visible. */
  lemma EntryLastArchiveWins<T>(entries: map<string, PropertyValue>, key: string, codec: Codec<T>,
                                first: Option<T>, second: Option<T>)
    ensures ArchivedEntries(ArchivedEntries(entries, key, codec, first), key, codec, second)
            == ArchivedEntries(entries, key, codec, second)
  {
  }

  // ---- the file system ----

  /** The files after archiving `value` to `filename`: written when present, deleted only if it exists when absent. */
  function ArchivedFiles<T>(files: map<string, Bytes>, filename: string, codec: Codec<T>, value: Option<T>)
    : map<string, Bytes>
  {
    match value
    case Some(v) => files[filename := codec.encode(v)]
    case None => if filename in files then files - {filename} else files
  }

  /** What unarchiving `filename` yields: nothing for a missing file or one that does not decode. */
  function UnarchivedFile<T>(files: map<string, Bytes>, filename: string, codec: Codec<T>): Option<T>
  {
    if filename in files then codec.decode(files[filename]) else None
  }

  lemma FileRoundTrip<T(!new)>(files: map<string, Bytes>, filename: string, codec: Codec<T>, value: Option<T>)
    requires RoundTrips(codec)
    ensures UnarchivedFile(ArchivedFiles(files, filename, codec, value), filename, codec) == value
  {
  }

  lemma FileFrame<T>(files: map<string, Bytes>, filename: string, codec: Codec<T>, value: Option<T>, other: string)
    requires other != filename
    ensures var after := ArchivedFiles(files, filename, codec, value);
            && (other in after <==> other in files)
            && (other in files ==> after[other] == files[other])
  {
  }

  /** Deleting a file that does not exist changes nothing. */
  lemma DeleteMissingFile<T>(files: map<string, Bytes>, filename: string, codec: Codec<T>)
    requires filename !in files
    ensures ArchivedFiles(files, filename, codec, None) == files
  {
  }

  // ---- any medium ----

  /** The observable state of the medium behind one backend. */
  datatype MediumState =
    | KeyValue(entries: map<string, PropertyValue>, synchronizations: nat)
    | Files(files: map<string, Bytes>)

  function AfterArchive<T>(s: MediumState, key: string, codec: Codec<T>, value: Option<T>): MediumState
  {
    match s
    case KeyValue(entries, n) => KeyValue(ArchivedEntries(entries, key, codec, value), n)
    case Files(files) => Files(ArchivedFiles(files, key, codec, value))
  }

  /** A key-value store counts the call; the file system has nothing to synchronize. */
  function AfterSynchronize(s: MediumState): MediumState
  {
    match s
    case KeyValue(entries, n) => KeyValue(entries, n + 1)
    case Files(_) => s
  }

  function ReadFrom<T>(s: MediumState, key: string, codec: Codec<T>): Option<T>
  {
    match s
    case KeyValue(entries, _) => UnarchivedEntry(entries, key, codec)
    case Files(files) => UnarchivedFile(files, key, codec)
  }

  /** On any medium, reading back what was archived gives the archived object, `None` included. */
  lemma {:induction false} ArchiveRoundTrip<T(!new)>(s: MediumState, key: string, codec: Codec<T>, value: Option<T>)
    requires RoundTrips(codec)
    ensures ReadFrom(AfterArchive(s, key, codec, value), key, codec) == value
  {
    match s
    case KeyValue(entries, _) => EntryRoundTrip(entries, key, codec, value);
    case Files(files) => FileRoundTrip(files, key, codec, value);
  }

  /** Synchronizing does not change what a read returns. */
  lemma SynchronizeKeepsRead<T>(s: MediumState, key: string, codec: Codec<T>)
    ensures ReadFrom(AfterSynchronize(s), key, codec) == ReadFrom(s, key, codec)
  {
  }
}

=== FILE: repository.dfy ===
/** The Repository contract's callback slot. */
module Repository {
  import opened Wrappers

  /**
   * Holds at most one external-change closure. A closure is identified by the object
   * that installed it (the persistent object it weakly captures); `None` means no
   * closure is installed. Assigning the field replaces the previous closure.
   */
  class RepositoryDelegate {
    var objectChangedExternally: Option<object>

    constructor ()
      ensures objectChangedExternally == None
    {
      objectChangedExternally := None;
    }
  }
}

/**
 * The type-erased repository. The concrete repository it wraps is one of the three
 * backends; every operation forwards to it and the wrapper keeps no state of its own
 * (its only field is a constant).
 */
module AnyRepository {
  import opened Wrappers
  import opened Codec
  import opened Records
  import opened Repository
  import UserDefaultsRepository
  import FileRepository
  import UbiquitousKeyValueStoreRepository

  datatype Base<T(!new)> =
    | UserDefaults(userDefaultsRepository: UserDefaultsRepository.UserDefaultsRepository<T>)
    | File(fileRepository: FileRepository.FileRepository<T>)
    | Ubiquitous(ubiquitousRepository: UbiquitousKeyValueStoreRepository.UbiquitousKeyValueStoreRepository<T>)
  {
    /** The medium the wrapped repository writes to. */
    function Footprint(): set<object>
    {
      match this
      case UserDefaults(r) => {r.userDefaults}
      case File(r) => {r.fileManager}
      case Ubiquitous(r) => {r.store}
    }

    /** The wrapped repository's own delegate object. */
    function Delegate(): RepositoryDelegate
    {
      match this
      case UserDefaults(r) => r.delegate
      case File(r) => r.delegate
      case Ubiquitous(r) => r.delegate
    }

    /** The key or filename of the one record the wrapped repository addresses. */
    function Key(): string
    {
      match this
      case UserDefaults(r) => r.key
      case File(r) => r.filename
      case Ubiquitous(r) => r.key
    }

    function ObjectCodec(): Codec<T>
    {
      match this
      case UserDefaults(r) => r.codec
      case File(r) => r.codec
      case Ubiquitous(r) => r.codec
    }

    ghost function Medium(): MediumState
      reads Footprint()
    {
      match this
      case UserDefaults(r) => KeyValue(r.userDefaults.entries, r.userDefaults.synchronizations)
      case File(r) => Files(r.fileManager.files)
      case Ubiquitous(r) => KeyValue(r.store.entries, r.store.synchronizations)
    }
  }

  class AnyRepository<T(!new)> {
    const base: Base<T>

    constructor (base: Base<T>)
      ensures this.base == base
    {
      this.base := base;
    }

    /** A closure assigned through the wrapper is the one the wrapped repository invokes. */
    function Delegate(): (d: RepositoryDelegate)
      ensures base.UserDefaults? ==> d == base.userDefaultsRepository.delegate
      ensures base.File? ==> d == base.fileRepository.delegate
      ensures base.Ubiquitous? ==> d == base.ubiquitousRepository.delegate
    {
      base.Delegate()
    }

    /** What an unarchive through the wrapper returns in the current state. */
    ghost function Read(): Option<T>
      reads base.Footprint()
    {
      ReadFrom(base.Medium(), base.Key(), base.ObjectCodec())
    }

    /** Exactly the wrapped repository's archive: the record is written or removed, nothing else changes. */
    method ArchiveObject(value: Option<T>)
      modifies base.Footprint()
      ensures base.Medium() == AfterArchive(old(base.Medium()), base.Key(), base.ObjectCodec(), value)
      ensures RoundTrips(base.ObjectCodec()) ==> Read() == value
    {
      match base {
        case UserDefaults(r) => r.ArchiveObject(value);
        case File(r) => r.ArchiveObject(value);
        case Ubiquitous(r) => r.Archive(value);
      }
      if RoundTrips(base.ObjectCodec()) {
        ArchiveRoundTrip(old(base.Medium()), base.Key(), base.ObjectCodec(), value);
      }
    }

    /** Exactly the wrapped repository's unarchive; only the iCloud one synchronizes, after reading. */
    method UnarchiveObject() returns (value: Option<T>)
      modifies base.Footprint()
      ensures value == old(Read())
      ensures base.Medium() == if base.Ubiquitous? then AfterSynchronize(old(base.Medium())) else old(base.Medium())
      ensures Read() == old(Read())
    {
      match base {
        case UserDefaults(r) => value := r.UnarchiveObject();
        case File(r) => value := r.UnarchiveObject();
        case Ubiquitous(r) => value := r.Unarchive();
      }
    }

    /** Exactly the wrapped repository's synchronize. */
    method Synchronize()
      modifies base.Footprint()
      ensures base.Medium() == AfterSynchronize(old(base.Medium()))
      ensures Read() == old(Read())
    {
      match base {
        case UserDefaults(r) => r.Synchronize();
        case File(r) => r.Synchronize();
        case Ubiquitous(r) => r.Synchronize();
      }
    }
  }
}

=== FILE: scenarios.dfy ===
/**
 * The persistence scenarios of the repository's XCTest suite, run against the model
 * with `save()` as the persisting call, plus the delivery of remote changes. Each
 * temporary object that Swift releases at once is deinitialized at once here, which
 * saves its value again.
 */
module Scenarios {
  import opened Wrappers
  import opened Codec
  import opened Stores
  import opened Records
  import opened KeyValueStoreChange
  import opened PersistentObject

  /**
   * `PersistentObject(userDefaultsKey:).object` on an object Swift releases at once:
   * construct, read the cached value, deinitialize (which saves that value back).
   */
  method ReadThroughTemporary<T(!new)>(userDefaults: KeyValueStore, key: string, codec: Codec<T>)
    returns (value: Option<T>)
    requires RoundTrips(codec)
    modifies userDefaults
    ensures value == old(UnarchivedEntry(userDefaults.entries, key, codec))
    ensures UnarchivedEntry(userDefaults.entries, key, codec) == value
    ensures value.None? ==> userDefaults.entries == old(userDefaults.entries) - {key}
    ensures forall k :: k != key ==> DataIn(userDefaults.entries, k) == old(DataIn(userDefaults.entries, k))
  {
    var probe := WithUserDefaultsKey(key, userDefaults, codec);
    value := probe.value;
    probe.Deinit();
    EntryRoundTrip(old(userDefaults.entries), key, codec, value);
  }

  /**
   * A reset is not visible to a second object until it is saved; a saved value is read
   * back by a fresh object; a saved reset to nothing removes the record.
   */
  method BasicScenario<T(!new)>(userDefaults: KeyValueStore, key: string, codec: Codec<T>, amanda: T)
    returns (initially: Option<T>, beforeSave: Option<T>, afterSave: Option<T>,
             afterUnsavedReset: Option<T>, afterSavedReset: Option<T>)
    requires RoundTrips(codec)
    requires key !in userDefaults.entries
    modifies userDefaults
    ensures initially == None && beforeSave == None && afterSave == Some(amanda)
    ensures afterUnsavedReset == Some(amanda) && afterSavedReset == None
  {
    var person := WithUserDefaultsKey(key, userDefaults, codec);
    initially := person.value;
    person.Reset(Some(amanda));
    beforeSave := ReadThroughTemporary(userDefaults, key, codec);

    var unsaved := userDefaults.entries;
    person.Save();
    EntryRoundTrip(unsaved, key, codec, Some(amanda));
    var another := WithUserDefaultsKey(key, userDefaults, codec);
    afterSave := another.value;

    another.Reset(None);
    afterUnsavedReset := ReadThroughTemporary(userDefaults, key, codec);

    another.Save();
    afterSavedReset := ReadThroughTemporary(userDefaults, key, codec);
  }

  /** Dropping an object saves it: a value never saved explicitly is read back by the next object. */
  method SaveOnDeinitScenario<T(!new)>(userDefaults: KeyValueStore, key: string, codec: Codec<T>, andy: T)
    returns (beforeDeinit: Option<T>, afterDeinit: Option<T>)
    requires RoundTrips(codec)
    requires key !in userDefaults.entries
    modifies userDefaults
    ensures beforeDeinit == None && afterDeinit == Some(andy)
  {
    var person := WithUserDefaultsKey(key, userDefaults, codec);
    person.Reset(Some(andy));
    beforeDeinit := ReadThroughTemporary(userDefaults, key, codec);

    var unsaved := userDefaults.entries;
    person.Deinit();
    EntryRoundTrip(unsaved, key, codec, Some(andy));
    var another := WithUserDefaultsKey(key, userDefaults, codec);
    afterDeinit := another.value;
  }

  /**
   * Another device writes the record. A server-change notification for another key,
   * and a quota-violation one for this key, are ignored; a server-change notification
   * for this key replaces the cached value, an unsaved local edit included, and calls
   * the owner's closure exactly once.
   */
  method RemoteChangeScenario<T(!new)>(store: KeyValueStore, key: string, otherKey: string, codec: Codec<T>,
                                       mine: T, theirs: T)
    returns (afterOtherKey: Option<T>, afterQuota: Option<T>, afterServerChange: Option<T>, calls: nat)
    requires RoundTrips(codec)
    requires key != otherKey
    modifies store
    ensures afterOtherKey == Some(mine) && afterQuota == Some(mine) && afterServerChange == Some(theirs)
    ensures calls == 1
  {
    var delegate := new PersistentObjectDelegate<T>();
    delegate.objectChangedExternally := true;
    var p := WithUbiquitousKeyValueStoreKey(key, store, codec, delegate);
    var r := p.repository.base.ubiquitousRepository;
    p.Reset(Some(mine));

    // another device's write reaches the local replica
    var before := store.entries;
    store.SetObject(Data(codec.encode(theirs)), key);
    EntryRoundTrip(before, key, codec, Some(theirs));
    assert p.View() == Cache(Some(mine), Some(theirs));

    var otherKeyChanged := Notification(Some(map[ChangeReasonKey := Integer(ServerChange), ChangedKeysKey := Strings([otherKey])]));
    OtherKeysIgnored(otherKeyChanged, key);
    DeliverExternalChange(r, otherKeyChanged, p);
    afterOtherKey := p.value;

    var quota := Notification(Some(map[ChangeReasonKey := Integer(QuotaViolationChange), ChangedKeysKey := Strings([key])]));
    LocalReasonsIgnored(quota.userInfo.value, key);
    DeliverExternalChange(r, quota, p);
    afterQuota := p.value;
    assert delegate.calls == [];

    var serverChanged := Notification(Some(map[ChangeReasonKey := Integer(ServerChange), ChangedKeysKey := Strings([key])]));
    RemoteChangeDelivered(ServerChange, [key], key);
    DeliverExternalChange(r, serverChanged, p);
    afterServerChange := p.value;
    calls := |delegate.calls|;
  }
}

=== FILE: stores.dfy ===
/**
 * The platform storage media, each a key-addressed store updated in place.
 * Their remote or on-disk behaviour is not modelled: `synchronize` leaves the
 * contents as they are and only counts the call.
 */
module Stores {
  import opened Wrappers
  import opened Codec

  /** A property-list value: an NSData blob, or an object of any other kind. */
  datatype PropertyValue = Data(bytes: Bytes) | Other(text: string)

  /** The bytes stored under `key`, if the entry exists and holds data. */
  function DataIn(entries: map<string, PropertyValue>, key: string): Option<Bytes>
  {
    if key in entries && entries[key].Data? then Some(entries[key].bytes) else None
  }

  /** Setting an entry makes it readable as data exactly when it is data; other keys read as before. */
  lemma DataInAfterSet(entries: map<string, PropertyValue>, changed: string, value: PropertyValue, key: string)
    ensures DataIn(entries[changed := value], key)
            == if key == changed then (if value.Data? then Some(value.bytes) else None)
               else DataIn(entries, key)
  {
  }

  /** Removing an entry makes it unreadable; other keys read as before. */
  lemma DataInAfterRemove(entries: map<string, PropertyValue>, changed: string, key: string)
    ensures DataIn(entries - {changed}, key) == if key == changed then None else DataIn(entries, key)
  {
  }

  /** An NSUserDefaults database or the NSUbiquitousKeyValueStore. */
  class KeyValueStore {
    var entries: map<string, PropertyValue>
    /** How many times the store's `synchronize` has been called. */
    ghost var synchronizations: nat

    constructor (entries: map<string, PropertyValue>)
      ensures this.entries == entries && synchronizations == 0
    {
      this.entries := entries;
      synchronizations := 0;
    }

    /** `data(forKey:)`, or `object(forKey:) as? NSData`. */
    function DataForKey(key: string): (d: Option<Bytes>)
      reads this
    {
      DataIn(entries, key)
    }

    /** `set(_:forKey:)`: replaces the entry under `key`. */
    method SetObject(value: PropertyValue, key: string)
      modifies this
      ensures entries == old(entries)[key := value]
      ensures synchronizations == old(synchronizations)
    {
      entries := entries[key := value];
    }

    /** `removeObject(forKey:)`: a missing key is left missing. */
    method RemoveObject(key: string)
      modifies this
      ensures entries == old(entries) - {key}
      ensures synchronizations == old(synchronizations)
    {
      entries := entries - {key};
    }

    method Synchronize()
      modifies this
      ensures entries == old(entries)
      ensures synchronizations == old(synchronizations) + 1
    {
      synchronizations := synchronizations + 1;
    }
  }

  /** The file system as seen through NSFileManager: file contents by path. */
  class FileManager {
    var files: map<string, Bytes>

    constructor (files: map<string, Bytes>)
      ensures this.files == files
    {
      this.files := files;
    }

    function FileExists(path: string): bool
      reads this
    {
      path in files
    }

    /** The contents of the file at `path`, if there is one. */
    function Contents(path: string): Option<Bytes>
      reads this
    {
      if path in files then Some(files[path]) else None
    }

    /** Creates or replaces the file at `path`. */
    method WriteFile(path: string, bytes: Bytes)
      modifies this
      ensures files == old(files)[path := bytes]
    {
      files := files[path := bytes];
    }

    /** `removeItem(atPath:)`, which fails when there is nothing at `path`. */
    method RemoveItem(path: string)
      requires path in files
      modifies this
      ensures files == old(files) - {path}
    {
      files := files - {path};
    }
  }
}

=== FILE: strategy.dfy ===
/** The Strategy contract's callback slot. */
module Strategy {
  import opened Wrappers

  /**
   * Holds at most one external-change closure. A closure is identified by the object
   * that installed it; `None` means no closure is installed. Assigning the field
   * replaces the previous closure.
   */
  class StrategyDelegate {
    var objectChangedExternally: Option<object>

    constructor ()
      ensures objectChangedExternally == None
    {
      objectChangedExternally := None;
    }
  }
}

/**
 * The type-erased strategy. The concrete strategy it wraps is one of the three
 * backends; every operation forwards to it and the wrapper keeps no state of its own
 * (its only field is a constant).
 */
module AnyStrategy {
  import opened Wrappers
  import opened Codec
  import opened Records
  import opened Strategy
  import UserDefaultsStrategy
  import FileStrategy
  import UbiquitousKeyValueStoreStrategy

  datatype BaseStrategy<T(!new)> =
    | UserDefaults(userDefaultsStrategy: UserDefaultsStrategy.UserDefaultsStrategy<T>)
    | File(fileStrategy: FileStrategy.FileStrategy<T>)
    | Ubiquitous(ubiquitousStrategy: UbiquitousKeyValueStoreStrategy.UbiquitousKeyValueStoreStrategy<T>)
  {
    /** The medium the wrapped strategy writes to. */
    function Footprint(): set<object>
    {
      match this
      case UserDefaults(r) => {r.userDefaults}
      case File(r) => {r.fileManager}
      case Ubiquitous(r) => {r.store}
    }

    /** The wrapped strategy's own delegate object. */
    function Delegate(): StrategyDelegate
    {
      match this
      case UserDefaults(r) => r.delegate
      case File(r) => r.delegate
      case Ubiquitous(r) => r.delegate
    }

    /** The key or filename of the one record the wrapped strategy addresses. */
    function Key(): string
    {
      match this
      case UserDefaults(r) => r.key
      case File(r) => r.filename
      case Ubiquitous(r) => r.key
    }

    function ObjectCodec(): Codec<T>
    {
      match this
      case UserDefaults(r) => r.codec
      case File(r) => r.codec
      case Ubiquitous(r) => r.codec
    }

    ghost function Medium(): MediumState
      reads Footprint()
    {
      match this
      case UserDefaults(r) => KeyValue(r.userDefaults.entries, r.userDefaults.synchronizations)
      case File(r) => Files(r.fileManager.files)
      case Ubiquitous(r) => KeyValue(r.store.entries, r.store.synchronizations)
    }
  }

  class AnyStrategy<T(!new)> {
    const base: BaseStrategy<T>

    constructor (strategy: BaseStrategy<T>)
      ensures base == strategy
    {
      base := strategy;
    }

    /** A closure assigned through the wrapper is the one the wrapped strategy invokes. */
    function Delegate(): (d: StrategyDelegate)
      ensures base.UserDefaults? ==> d == base.userDefaultsStrategy.delegate
      ensures base.File? ==> d == base.fileStrategy.delegate
      ensures base.Ubiquitous? ==> d == base.ubiquitousStrategy.delegate
    {
      base.Delegate()
    }

    /** What an unarchive through the wrapper returns in the current state. */
    ghost function Read(): Option<T>
      reads base.Footprint()
    {
      ReadFrom(base.Medium(), base.Key(), base.ObjectCodec())
    }

    /** Exactly the wrapped strategy's archive: the record is written or removed, nothing else changes. */
    method ArchiveObject(value: Option<T>)
      modifies base.Footprint()
      ensures base.Medium() == AfterArchive(old(base.Medium()), base.Key(), base.ObjectCodec(), value)
      ensures RoundTrips(base.ObjectCodec()) ==> Read() == value
    {
      match base {
        case UserDefaults(r) => r.ArchiveObject(value);
        case File(r) => r.ArchiveObject(value);
        case Ubiquitous(r) => r.ArchiveObject(value);
      }
      if RoundTrips(base.ObjectCodec()) {
        ArchiveRoundTrip(old(base.Medium()), base.Key(), base.ObjectCodec(), value);
      }
    }

    /** Exactly the wrapped strategy's unarchive; only the iCloud one synchronizes, after reading. */
    method UnarchiveObject() returns (value: Option<T>)
      modifies base.Footprint()
      ensures value == old(Read())
      ensures base.Medium() == if base.Ubiquitous? then AfterSynchronize(old(base.Medium())) else old(base.Medium())
      ensures Read() == old(Read())
    {
      match base {
        case UserDefaults(r) => value := r.UnarchiveObject();
        case File(r) => value := r.UnarchiveObject();
        case Ubiquitous(r) => value := r.UnarchiveObject();
      }
    }

    /** Exactly the wrapped strategy's synchronize. */
    method Synchronize()
      modifies base.Footprint()
      ensures base.Medium() == AfterSynchronize(old(base.Medium()))
      ensures Read() == old(Read())
    {
      match base {
        case UserDefaults(r) => r.Synchronize();
        case File(r) => r.Synchronize();
        case Ubiquitous(r) => r.Synchronize();
      }
    }
  }
}

=== FILE: ubiquitous_key_value_store_repository.dfy ===
/** A Repository persisting to the iCloud key-value store under one key. */
module UbiquitousKeyValueStoreRepository {
  import opened Wrappers
  import opened Codec
  import opened Stores
  import opened Records
  import opened Repository
  import opened KeyValueStoreChange

  class UbiquitousKeyValueStoreRepository<T(!new)> {
    const delegate: RepositoryDelegate
    const key: string
    /** The default NSUbiquitousKeyValueStore, passed in rather than reached through a global. */
    const store: KeyValueStore
    const codec: Codec<T>

    /** The key is a constant: the repository addresses one record for its lifetime. */
    constructor (key: string, store: KeyValueStore, codec: Codec<T>)
      ensures this.key == key && this.store == store && this.codec == codec
      ensures fresh(delegate) && delegate.objectChangedExternally == None
    {
      this.key := key;
      this.store := store;
      this.codec := codec;
      delegate := new RepositoryDelegate();
    }

    /** What reading the local replica returns in the current state. */
    ghost function Read(): Option<T>
      reads store
    {
      UnarchivedEntry(store.entries, key, codec)
    }

    method Archive(value: Option<T>)
      modifies store
      ensures store.entries == ArchivedEntries(old(store.entries), key, codec, value)
      ensures store.synchronizations == old(store.synchronizations)
      ensures RoundTrips(codec) ==> Read() == value
    {
      match value {
        case Some(v) => store.SetObject(Data(codec.encode(v)), key);
        case None => store.RemoveObject(key);
      }
      if RoundTrips(codec) {
        EntryRoundTrip(old(store.entries), key, codec, value);
      }
    }

    /** Reads, then synchronizes once; the value returned is the one read before synchronizing. */
    method Unarchive() returns (value: Option<T>)
      modifies store
      ensures value == old(Read())
      ensures store.entries == old(store.entries)
      ensures store.synchronizations == old(store.synchronizations) + 1
    {
      value := UnarchiveObject(true);
    }

    method Synchronize()
      modifies store
      ensures store.entries == old(store.entries)
      ensures store.synchronizations == old(store.synchronizations) + 1
    {
      store.Synchronize();
    }

    /** Reads the record, then synchronizes the store if asked to. */
    method UnarchiveObject(synchronize: bool) returns (value: Option<T>)
      modifies store
      ensures value == old(Read())
      ensures store.entries == old(store.entries)
      ensures store.synchronizations == old(store.synchronizations) + if synchronize then 1 else 0
    {
      value := None;
      var data := store.DataForKey(key);
      if data.Some? {
        value := codec.decode(data.value);
      }
      if synchronize {
        store.Synchronize();
      }
    }

    /**
     * The did-change-externally handler. It returns the value the installed closure is
     * called with, or `None` when the closure is not called: a guard failed, or no
     * closure is installed. The record is re-read without synchronizing.
     */
    method UbiquitousKeyValueStoreDidChangeExternally(notification: Notification) returns (delivery: Option<Option<T>>)
      modifies store
      ensures store.entries == old(store.entries)
      ensures store.synchronizations == old(store.synchronizations)
      ensures delivery.Some? <==> Filter(notification, key) == Deliver && delegate.objectChangedExternally.Some?
      ensures delivery.Some? ==> delivery.value == Read()
    {
      delivery := None;
      if Filter(notification, key) != Deliver {
        return;
      }
      var value := UnarchiveObject(false);
      if delegate.objectChangedExternally.Some? {
        delivery := Some(value);
      }
    }
  }
}

=== FILE: ubiquitous_key_value_store_strategy.dfy ===
/** A Strategy persisting to the iCloud key-value store under one key. */
module UbiquitousKeyValueStoreStrategy {
  import opened Wrappers
  import opened Codec
  import opened Stores
  import opened Records
  import opened Strategy
  import opened KeyValueStoreChange

  class UbiquitousKeyValueStoreStrategy<T(!new)> {
    const delegate: StrategyDelegate
    const key: string
    /** The default NSUbiquitousKeyValueStore, passed in rather than reached through a global. */
    const store: KeyValueStore
    const codec: Codec<T>

    /** The key is a constant: the strategy addresses one record for its lifetime. */
    constructor (key: string, store: KeyValueStore, codec: Codec<T>)
      ensures this.key == key && this.store == store && this.codec == codec
      ensures fresh(delegate) && delegate.objectChangedExternally == None
    {
      this.key := key;
      this.store := store;
      this.codec := codec;
      delegate := new StrategyDelegate();
    }

    /** What reading the local replica returns in the current state. */
    ghost function Read(): Option<T>
      reads store
    {
      UnarchivedEntry(store.entries, key, codec)
    }

    method ArchiveObject(value: Option<T>)
      modifies store
      ensures store.entries == ArchivedEntries(old(store.entries), key, codec, value)
      ensures store.synchronizations == old(store.synchronizations)
      ensures RoundTrips(codec) ==> Read() == value
    {
      match value {
        case Some(v) => store.SetObject(Data(codec.encode(v)), key);
        case None => store.RemoveObject(key);
      }
      if RoundTrips(codec) {
        EntryRoundTrip(old(store.entries), key, codec, value);
      }
    }

    /** Reads, then synchronizes once; the value returned is the one read before synchronizing. */
    method UnarchiveObject() returns (value: Option<T>)
      modifies store
      ensures value == old(Read())
      ensures store.entries == old(store.entries)
      ensures store.synchronizations == old(store.synchronizations) + 1
    {
      value := UnarchiveObjectSynchronizing(true);
    }

    method Synchronize()
      modifies store
      ensures store.entries == old(store.entries)
      ensures store.synchronizations == old(store.synchronizations) + 1
    {
      store.Synchronize();
    }

    /** The private `unarchiveObject(synchronize:)`: reads the record, then synchronizes the store if asked to. */
    method UnarchiveObjectSynchronizing(synchronize: bool) returns (value: Option<T>)
      modifies store
      ensures value == old(Read())
      ensures store.entries == old(store.entries)
      ensures store.synchronizations == old(store.synchronizations) + if synchronize then 1 else 0
    {
      value := None;
      var data := store.DataForKey(key);
      if data.Some? {
        value := codec.decode(data.value);
      }
      if synchronize {
        store.Synchronize();
      }
    }

    /**
     * The did-change-externally handler. It returns the value the installed closure is
     * called with, or `None` when the closure is not called: a guard failed, or no
     * closure is installed. The record is re-read without synchronizing.
     */
    method UbiquitousKeyValueStoreDidChangeExternally(notification: Notification) returns (delivery: Option<Option<T>>)
      modifies store
      ensures store.entries == old(store.entries)
      ensures store.synchronizations == old(store.synchronizations)
      ensures delivery.Some? <==> Filter(notification, key) == Deliver && delegate.objectChangedExternally.Some?
      ensures delivery.Some? ==> delivery.value == Read()
    {
      delivery := None;
      if Filter(notification, key) != Deliver {
        return;
      }
      var value := UnarchiveObjectSynchronizing(false);
      if delegate.objectChangedExternally.Some? {
        delivery := Some(value);
      }
    }
  }
}

=== FILE: user_defaults_repository.dfy ===
/** A Repository persisting to an NSUserDefaults database under one key. */
module UserDefaultsRepository {
  import opened Wrappers
  import opened Codec
  import opened Stores
  import opened Records
  import opened Repository

  class UserDefaultsRepository<T(!new)> {
    /** Never given a closure by the repository itself: local defaults do not change externally. */
    const delegate: RepositoryDelegate
    const key: string
    const userDefaults: KeyValueStore
    const codec: Codec<T>

    /** The key is a constant: the repository addresses one record for its lifetime. */
    constructor (key: string, userDefaults: KeyValueStore, codec: Codec<T>)
      ensures this.key == key && this.userDefaults == userDefaults && this.codec == codec
      ensures fresh(delegate) && delegate.objectChangedExternally == None
    {
      this.key := key;
      this.userDefaults := userDefaults;
      this.codec := codec;
      delegate := new RepositoryDelegate();
    }

    /** What an unarchive returns in the current state. */
    ghost function Read(): Option<T>
      reads userDefaults
    {
      UnarchivedEntry(userDefaults.entries, key, codec)
    }

    method ArchiveObject(value: Option<T>)
      modifies userDefaults
      ensures userDefaults.entries == ArchivedEntries(old(userDefaults.entries), key, codec, value)
      ensures userDefaults.synchronizations == old(userDefaults.synchronizations)
      ensures RoundTrips(codec) ==> Read() == value
    {
      match value {
        case Some(v) => userDefaults.SetObject(Data(codec.encode(v)), key);
        case None => userDefaults.RemoveObject(key);
      }
      if RoundTrips(codec) {
        EntryRoundTrip(old(userDefaults.entries), key, codec, value);
      }
    }

    /** Reads without changing the store (no `modifies`). */
    method UnarchiveObject() returns (value: Option<T>)
      ensures value == Read()
      ensures key !in userDefaults.entries ==> value == None
      ensures value.Some? ==> key in userDefaults.entries && userDefaults.entries[key].Data?
    {
      var data := userDefaults.DataForKey(key);
      if data.Some? {
        return codec.decode(data.value);
      }
      return None;
    }

    method Synchronize()
      modifies userDefaults
      ensures userDefaults.entries == old(userDefaults.entries)
      ensures userDefaults.synchronizations == old(userDefaults.synchronizations) + 1
    {
      userDefaults.Synchronize();
    }
  }
}

=== FILE: user_defaults_strategy.dfy ===
/** A Strategy persisting to an NSUserDefaults database under one key. */
module UserDefaultsStrategy {
  import opened Wrappers
  import opened Codec
  import opened Stores
  import opened Records
  import opened Strategy

  class UserDefaultsStrategy<T(!new)> {
    /** Never given a closure by the strategy itself: local defaults do not change externally. */
    const delegate: StrategyDelegate
    const key: string
    const userDefaults: KeyValueStore
    const codec: Codec<T>

    /** The key is a constant: the strategy addresses one record for its lifetime. */
    constructor (key: string, userDefaults: KeyValueStore, codec: Codec<T>)
      ensures this.key == key && this.userDefaults == userDefaults && this.codec == codec
      ensures fresh(delegate) && delegate.objectChangedExternally == None
    {
      this.key := key;
      this.userDefaults := userDefaults;
      this.codec := codec;
      delegate := new StrategyDelegate();
    }

    /** What an unarchive returns in the current state. */
    ghost function Read(): Option<T>
      reads userDefaults
    {
      UnarchivedEntry(userDefaults.entries, key, codec)
    }

    method ArchiveObject(value: Option<T>)
      modifies userDefaults
      ensures userDefaults.entries == ArchivedEntries(old(userDefaults.entries), key, codec, value)
      ensures userDefaults.synchronizations == old(userDefaults.synchronizations)
      ensures RoundTrips(codec) ==> Read() == value
    {
      match value {
        case Some(v) => userDefaults.SetObject(Data(codec.encode(v)), key);
        case None => userDefaults.RemoveObject(key);
      }
      if RoundTrips(codec) {
        EntryRoundTrip(old(userDefaults.entries), key, codec, value);
      }
    }

    /** Reads without changing the store (no `modifies`). */
    method UnarchiveObject() returns (value: Option<T>)
      ensures value == Read()
      ensures key !in userDefaults.entries ==> value == None
      ensures value.Some? ==> key in userDefaults.entries && userDefaults.entries[key].Data?
    {
      var data := userDefaults.DataForKey(key);
      if data.Some? {
        return codec.decode(data.value);
      }
      return None;
    }

    method Synchronize()
      modifies userDefaults
      ensures userDefaults.entries == old(userDefaults.entries)
      ensures userDefaults.synchronizations == old(userDefaults.synchronizations) + 1
    {
      userDefaults.Synchronize();
    }
  }
}

=== FILE: wrappers.dfy ===
/** Swift's optional `T?`. */
module Wrappers {
  datatype Option<+T> = None | Some(value: T)
}
